=== FILE: README.md ===
# Gembert's Abdication data pipeline, modelled in Dafny

This project models the pure logic of the data pipeline of the card game
*Gembert's Abdication*. It has three scripts:

- `build_data.js` declares the building, card and onus tables. It scores
  resource sets with the `VALUES` table, hands out object ids from a counter,
  and turns tokens such as `_honey` or `_x` into glyphs before the tables are
  written as JSON.
- `generate_images.py` turns card data into SVG/PNG card images and a
  spritesheet. The model covers its pure helpers: `cost_str`, the card-name
  normalisation used for art paths and output file names, and the integer
  layout of `create_spritesheet`.
- `assign_ids.py` numbers the cards of the card data file 1, 2, 3, ...

Modules (one file each):

| file | module | models |
|---|---|---|
| `wrappers.dfy` | `Wrappers` | `Option` (a JavaScript `NaN`/`undefined`, an absent field) and `Result` (a Python exception) |
| `strings.dfy` | `Strings` | replace-all as done by JavaScript `replaceAll` and Python `str.replace`; `', '.join`; cutting a string at a character |
| `decimal.dfy` | `Decimal` | Python `str(n)` for integers, and reading it back |
| `resource_model.dfy` | `ResourceModel` | `RESOURCES`, `VALUES`, `computeValue`, `newResourceSet` |
| `entities.dfy` | `Entities` | `newObjectId`, `newCard`, `newOnus`, `newBuilding`, and the order in which the three tables are built |
| `symbols.dfy` | `Symbols` | `SYMBOL_MAP` and `symbolReplace` |
| `card_images.dfy` | `CardImages` | `cost_str`, `art_path_from_name`, the file stem and the output image path |
| `spritesheet.dfy` | `Spritesheet` | the sizes, offsets and early exits of `create_spritesheet` |
| `assign_ids.dfy` | `AssignIds` | the id-assignment loop |

Modelling choices:

- A JavaScript number is an `Option<int>`, and `None` is `NaN`. `undefined`
  becomes `NaN` under `*`, and `NaN` absorbs `+`. All weights and counts in the
  script are small integers, so no rounding arises.
- A constructor's argument object is a `Data` value with one optional field per
  property that a constructor reads. `??` replaces exactly the absent (`None`)
  fields.
- The module-level `objectId` counter is passed in and returned explicitly as
  an `IdCounter`.
- The glyphs in `SYMBOL_MAP` appear in the source file as UTF-8 bytes read
  as Windows-1252. Ten of the literals re-encode to whole characters, such as
  U+00D7 for `_x`, and `Symbols.SymbolMap` uses those. The literals of
  `_honey`, `_larvae`, `_combatpower`, `_production` and `_d2` each lost a
  byte that Windows-1252 cannot show (81, 8D, 8F or 90), so their UTF-8 is
  cut short. For these five, `SymbolMap` restores the emoji the bytes begin,
  such as U+1F36F for honey. The file alone cannot show whether the script
  writes those emoji or the mis-decoded characters. `Symbols.LiteralSymbolMap`
  keeps the characters exactly as the file has them, and it is just as well
  formed. The proofs use only three facts about a glyph: it is non-empty, it
  has no `_`, and it has no ASCII letter or digit.
- In `create_spritesheet` the first image's size is a parameter. A negative
  sheet size is an error, because `Image.new` refuses one.

Facts about the scripts that the model makes explicit:

- An absent resource is `undefined` and makes the value `NaN`.
- The value is the weighted sum of the five resources.
- A key missing from `VALUES` silently gives `NaN`.
- `cost_str` writes `_key_xN` parts joined by `', '`, and gives the empty
  string for an empty mapping.
- Glyph substitution is an ordered sequence of replace-alls. The model
  proves three facts that make this order harmless for this table: no key
  is a prefix of another, each key on its own becomes its own glyph, and no
  glyph can form part of a token. It does not compare the ordered pass with
  another order or a longest-match pass on arbitrary text.

## Model

| member | source | states |
|---|---|---|
| `ResourceModel.ComputeValue` | build_data.js:43-53 | The total is a number exactly when every property has a `VALUES` weight and a defined count. In that case it equals the sum of weight times count over the properties. |
| `ResourceModel.NewResourceSet` | build_data.js:28-41 | The set keeps each of the five resource counts of `data`, and `undefined` where one is absent. `value` is a number exactly when all five are present. It is then 1·clay + 2·metal + 2·honey + 3·larvae + 5·clarity. |
| `ResourceModel.OtherKeysDropped` | build_data.js:28-35 | Adding or changing any property other than the five resources (`production`, say) leaves the resource set unchanged. |
| `ResourceModel.ValueNeverCountsItself` | build_data.js:37-38 | `value` is computed from the five counts alone. If it had been attached first, iterating it (it has no weight) would have made the total `NaN`. |
| `ResourceModel.RaiseOneCount` | build_data.js:16-53 | With all five counts present, one more unit of a resource raises the value by exactly that resource's `VALUES` weight. |
| `ResourceModel.MissingCountIsNaN` | build_data.js:30-49 | If any one resource is absent, that count is `undefined` and the value is `NaN`. |
| `ResourceModel.ScriptResourceSetsAreNaN` | build_data.js:133-438 | All eight `newResourceSet` calls in the tables (four building profits, four onus costs) name fewer than five resources, so every one of their values is `NaN`. |
| `Entities.NewObjectId` | build_data.js:75-80 | It returns the counter's current value, and the counter moves to one past it. |
| `Entities.NewCard` | build_data.js:91-103 | Fresh id. Tier is the given tier whenever one is given (0 included) and 1 only when absent. Name, texts, powers and cost are copied. |
| `Entities.NewOnus` | build_data.js:105-117 | Fresh id. Tier is the given tier whenever one is given and 1 only when absent. Name, flavour text and cost are copied. |
| `Entities.NewBuilding` | build_data.js:119-131 | Fresh id. Tier defaults to 0 and profits to `{}`, each only when absent. Name, texts, defence and cost are copied. |
| `Entities.BuildTable` | build_data.js:133-301 | A table literal builds its elements left to right. Element `i` is that constructor applied to row `i` with id `start + i`, and the counter ends `|rows|` further on. |
| `Entities.TableIdsConsecutive` | build_data.js:75-80 | Across buildings, then cards, then onus tiles, the ids are 1, 2, 3, ... in construction order, so they are pairwise distinct. |
| `Entities.ScriptIdRanges` | build_data.js:133-438 | With 15 buildings, 9 cards and 4 onus tiles, buildings get ids 1..15, cards 16..24 and onus tiles 25..28. |
| `Strings.ReplaceAllWithoutOccurrence` | build_data.js:84 | A replace-all step whose pattern does not occur leaves the string unchanged. |
| `Symbols.SymbolMapWellFormed` | build_data.js:57-73 | Every `SYMBOL_MAP` key is `_` followed by letters and digits only (no second `_`). Every glyph is non-empty and has no `_`, letter or digit. |
| `Symbols.ReplaceAllRemovesToken` | build_data.js:83-85 | After a step replaces all occurrences of a token by a glyph, the token no longer occurs anywhere, including across a glyph boundary. |
| `Symbols.ReplaceAllKeepsAbsence` | build_data.js:83-85 | A later step never brings back a token that an earlier step removed. |
| `Symbols.SymbolReplaceLeavesNoToken` | build_data.js:82-88 | After `symbolReplace`, no `SYMBOL_MAP` key occurs in the result. |
| `Symbols.SymbolReplaceIdempotent` | build_data.js:57-88 | Applying `symbolReplace` twice gives the same result as applying it once. |
| `Symbols.ReplaceEachIdempotent` | build_data.js:82-88 | For any table of keys and glyphs, the ordered replace-all pass is idempotent. |
| `Symbols.LiteralSymbolMapBehavesAlike` | build_data.js:57-88 | With the glyph text exactly as the file holds it, the table has the same keys and is still well formed and prefix-free. The pass is still idempotent, and each key on its own becomes its literal text. |
| `Symbols.SymbolReplaceWithoutUnderscore` | build_data.js:82-88 | A string with no `_` comes out of `symbolReplace` unchanged. |
| `Symbols.SymbolMapPrefixFree` | build_data.js:57-73 | No `SYMBOL_MAP` key is a prefix of another key. |
| `Symbols.TokenInTokenIsPrefix` | build_data.js:57-73 | One key occurs inside another key exactly when it is a prefix of it, because a key holds `_` only at its start. |
| `Symbols.ReplaceEachOnKey` | build_data.js:82-88 | For any table of keys and glyphs where no key is a prefix of another, the ordered pass turns a key on its own into exactly its glyph. |
| `Symbols.SymbolReplaceOfKey` | build_data.js:57-88 | `symbolReplace` of any single `SYMBOL_MAP` key is that key's glyph. |
| `Symbols.ProductionCostExample` | build_data.js:193 | The card text `_production_x3` becomes the production glyph, then `×`, then `3`. |
| `Strings.ReplaceCharPointwise` | generate_images.py:69 | `replace(' ', '_')` keeps the length, turns every space into `_` and keeps every other character. |
| `Strings.SplitOnJoin` | generate_images.py:33 | Cutting a join at its separator character gives back the parts, provided no part contains that character. |
| `Decimal.ParseIntToString` | generate_images.py:30 | `str(amount)` loses nothing: reading the text back gives the integer. |
| `CardImages.CostParts` | generate_images.py:27-31 | There is exactly one part per key, in the mapping's order, and part `i` is `'_' + key + '_x' + str(amount)`. |
| `CardImages.CostStr` | generate_images.py:24-35 | `cost_str` is the empty string exactly when the mapping is empty. |
| `CardImages.ParseCostPartOf` | generate_images.py:28-30 | The key and amount can be read back from a single part. |
| `CardImages.CostStrRoundTrip` | generate_images.py:24-35 | When no key holds a comma, every key and amount can be read back, in order, from the `cost_str` text. |
| `CardImages.FileStem` | generate_images.py:105-106 | The file stem replaces every space with `_` and keeps every other character, case included (the same code is at lines 150-151). |
| `CardImages.ArtName` | generate_images.py:68-70 | Every space becomes `_` and every letter is lower-cased. The length is kept, and no space or capital letter is left. |
| `CardImages.ArtNameIdempotent` | generate_images.py:69-70 | Normalising an art name a second time changes nothing. |
| `CardImages.ArtNameOfFileStem` | generate_images.py:69-70 | The art name and the file stem agree up to case. Normalising the stem gives the art name, and the art name is its own stem. |
| `CardImages.ArtPath` | generate_images.py:68-72 | The art path is `assets/art/<art name>.png`, or `<art name>.png` for a name starting with `/`, as POSIX `os.path.join` does. |
| `CardImages.OutputImagePath` | generate_images.py:160-161 | The card image is written to `output/card_images/<file stem>.png`, or to `<file stem>.png` for a name starting with `/`, as POSIX `os.path.join` does. |
| `Spritesheet.FloorDivMod` | generate_images.py:59-60 | Python's `//` and `%` satisfy `a == b*(a//b) + a%b`, and the remainder has the sign of the divisor. |
| `Spritesheet.CreateSpritesheet` | generate_images.py:40-61 | No file names gives IndexError. A negative sheet size gives ValueError. Zero columns gives ZeroDivisionError. Otherwise the sheet is `cols·(w+margin) − margin` by `rows·(h+margin) − margin`, and image `idx` goes to `((idx % cols)·(w+margin), (idx // cols)·(h+margin))`. |
| `Spritesheet.TileInsideSheet` | generate_images.py:46-60 | For a margin ≥ 0 and `idx < cols·rows`, an image of the first image's size lies wholly inside the sheet. |
| `Spritesheet.OverflowTileBelowSheet` | generate_images.py:50-61 | For a margin ≥ 0, an image with `idx ≥ cols·rows` is pasted at or below the sheet's bottom edge. |
| `Spritesheet.TilesDisjoint` | generate_images.py:55-61 | For a margin ≥ 0, two distinct indices are pasted onto non-overlapping rectangles of the first image's size. |
| `Spritesheet.DefaultSheetHoldsSeventy` | generate_images.py:40-61 | With the default 10 by 7 grid and margin 3, the sheet is `10w + 27` by `7h + 18`. Each of the first 70 images, taken at the first image's size, lies inside it, and no two of them overlap. |
| `AssignIds.AssignIds` | assign_ids.py:10-14 | The number of records is kept. Record `i` (from 0) has `id == i+1`, replacing any earlier `id`. No other field changes. |
| `AssignIds.AssignedIdsAreOneToN` | assign_ids.py:10-14 | The assigned ids are pairwise distinct, and together they are exactly 1..n. |

## Left out

- Writing the JSON files and logging the outcome (build_data.js:440-454) are I/O. `onusData` is built but never written.
- `JSON.stringify` (which writes `NaN` as `null` and drops `undefined` fields) and `json.load`/`json.dump` are foreign serialisers. Records are modelled as the values they hold.
- The literal contents of the building and card tables are modelled only through their counts (15, 9, 4) and the eight resource-set arguments.
- JavaScript numbers are doubles. The model uses unbounded integers, which agree with doubles for every count in the script.
- Entities: `null` and `undefined` are both `None`. `??` treats them alike, but a copied field that was `null` would stay `null` in the source.
- AssignIds.AssignIds: records are maps, so the position of a new `id` key among the dictionary keys is not modelled. JSON numbers are integers only.
- CardImages.ArtName: lower-cases ASCII letters only. Python's `lower()` also folds non-ASCII letters, and can change the length when it does.
- CardImages.CostStr: amounts are integers. `str` of a float or other JSON value is not modelled.
- CardImages.ArtPath: paths are joined as POSIX `os.path.join` (`posixpath.join`) does. Windows `ntpath`, with `\` separators and drive letters, is not modelled.
- CardImages.OutputImagePath: paths are joined as POSIX `os.path.join` does. Windows `ntpath` is not modelled.
- CardImages.ArtPath: `os.path.abspath` depends on the working directory and is not modelled. The path is the one before it is made absolute.
- The SVG template substitutions (generate_images.py:97-102, 142-147), Inkscape, the temporary SVG files, directory creation, the `get_art_path` placeholder fallback, and PIL loading/pasting/saving all depend on files or external tools.
- Spritesheet.TileInsideSheet: every image is taken to be the first image's size. The source pastes each image at its own size. The card generator makes them equal by exporting every card at 407×585 (generate_images.py:162).
- Spritesheet.TilesDisjoint: as for `TileInsideSheet`, every image is taken to be the first image's size. A wider image can overlap the one pasted after it.
- Spritesheet.DefaultSheetHoldsSeventy: as for `TileInsideSheet`, every image is taken to be the first image's size.
- Spritesheet.CreateSpritesheet: the image size comes from the first file and is a parameter. The rule that PIL refuses a negative size is Pillow behaviour, taken as given.
- Strings.ReplaceAll: an empty pattern (which JavaScript treats specially) is excluded, because every pattern used is non-empty. `$` sequences in replacement strings are not interpreted, because no glyph contains `$`.

=== FILE: assign_ids.dfy ===
/**
 * The id-assignment loop of assign_ids.py: every card record read from the
 * card data file gets `id` 1, 2, 3, ... in file order.
 *
 * Reading and writing the JSON file are not modelled; a record is the object
 * `json.load` produced for one card.
 */
module AssignIds {

  /** A JSON value as `json.load` produces it (numbers restricted to integers). */
  datatype Json =
    | JNull
    | JBool(b: bool)
    | JNumber(n: int)
    | JString(s: string)
    | JArray(items: seq<Json>)
    | JObject(fields: map<string, Json>)

  /** One card: the fields of its JSON object. */
  type Record = map<string, Json>

  const IdKey := "id"

  /**
   * `counter = 1; for card in cards: card['id'] = counter; counter += 1`.
   * The number of records is kept; record `i` (from 0) gets `id` `i + 1`,
   * replacing any `id` it had; every other field is untouched.
   */
  method AssignIds(cards: seq<Record>) returns (out: seq<Record>)
    ensures |out| == |cards|
    ensures forall i :: 0 <= i < |out| ==> IdKey in out[i] && out[i][IdKey] == JNumber(i + 1)
    ensures forall i :: 0 <= i < |out| ==> out[i].Keys == cards[i].Keys + {IdKey}
    ensures forall i, k :: 0 <= i < |out| && k in cards[i] && k != IdKey ==> out[i][k] == cards[i][k]
  {
    var counter := 1;
    out := [];
    while counter <= |cards|
      invariant 1 <= counter <= |cards| + 1
      invariant |out| == counter - 1
      invariant forall i :: 0 <= i < |out| ==> out[i] == cards[i][IdKey := JNumber(i + 1)]
    {
      var card := cards[counter - 1];
      out := out + [card[IdKey := JNumber(counter)]];
      counter := counter + 1;
    }
  }

  /** The `id` of a record, if it has a numeric one. */
  function IdOf(r: Record): (n: int)
    requires IdKey in r && r[IdKey].JNumber?
  {
    r[IdKey].n
  }

  /** After the loop the ids are pairwise distinct and are exactly 1..n. */
  lemma AssignedIdsAreOneToN(cards: seq<Record>, out: seq<Record>)
    requires |out| == |cards|
    requires forall i :: 0 <= i < |out| ==> IdKey in out[i] && out[i][IdKey] == JNumber(i + 1)
    ensures forall i, j :: 0 <= i < j < |out| ==> IdOf(out[i]) != IdOf(out[j])
    ensures forall n :: n in AssignedIds(out) <==> 1 <= n <= |cards|
  {
    forall n | 1 <= n <= |cards|
      ensures n in AssignedIds(out)
    {
      assert IdOf(out[n - 1]) == n;
    }
  }

  /** The set of ids carried by records that all have numeric ids. */
  function AssignedIds(out: seq<Record>): set<int>
    requires forall i :: 0 <= i < |out| ==> IdKey in out[i] && out[i][IdKey].JNumber?
  {
    set i | 0 <= i < |out| :: IdOf(out[i])
  }
}

=== FILE: card_images.dfy ===
/**
 * The pure helpers of the image script (generate_images.py): `cost_str`, the
 * card-name normalisation behind `art_path_from_name`, and the file stem the
 * two generators derive from a card name.
 */
module CardImages {
  import opened Wrappers
  import opened Strings
  import opened Decimal

  // ---------------------------------------------------------------------------
  // cost_str

  /** A cost mapping in its iteration order: key and amount. */
  type Cost = seq<(string, int)>

  /** One part of `cost_str`: `'_' + key + '_x' + str(amount)`. */
  function CostPart(key: string, amount: int): string {
    "_" + key + "_x" + IntToString(amount)
  }

  /** The loop of `cost_str`: one part per key, in the mapping's order. */
  function CostParts(cost: Cost): (parts: seq<string>)
    ensures |parts| == |cost|
    ensures forall i :: 0 <= i < |cost| ==> parts[i] == CostPart(cost[i].0, cost[i].1)
    decreases |cost|
  {
    if |cost| == 0 then []
    else [CostPart(cost[0].0, cost[0].1)] + CostParts(cost[1..])
  }

  /**
   * `cost_str(cost)`: the parts joined by `', '`. It is empty exactly when the
   * mapping is, since every part is at least `_` + `_x` + one digit long.
   */
  function CostStr(cost: Cost): (s: string)
    ensures s == "" <==> |cost| == 0
  {
    var parts := CostParts(cost);
    if |parts| > 0 then
      assert |parts[0]| >= 4;
      JoinHeadPrefix(", ", parts);
      Join(", ", parts)
    else Join(", ", parts)
  }

  /** A non-empty join is at least as long as its first part. */
  lemma JoinHeadPrefix(sep: string, parts: seq<string>)
    requires |parts| > 0
    ensures |Join(sep, parts)| >= |parts[0]|
  {
  }

  // Reading a `cost_str` text back.

  /** Where the trailing run of number characters of `p` starts. */
  function TrailingNumberStart(p: string): (i: nat)
    ensures i <= |p|
    ensures forall j :: i <= j < |p| ==> IsNumberChar(p[j])
    decreases |p|
  {
    if |p| == 0 || !IsNumberChar(p[|p| - 1]) then |p|
    else TrailingNumberStart(p[..|p| - 1])
  }

  lemma {:induction false} TrailingNumberStartOf(a: string, d: string)
    requires |a| > 0 && !IsNumberChar(a[|a| - 1])
    requires forall j :: 0 <= j < |d| ==> IsNumberChar(d[j])
    ensures TrailingNumberStart(a + d) == |a|
    decreases |d|
  {
    if |d| == 0 {
      assert a + d == a;
    } else {
      var p := a + d;
      assert p[..|p| - 1] == a + d[..|d| - 1];
      TrailingNumberStartOf(a, d[..|d| - 1]);
    }
  }

  /** Read one part `_key_xN` back: the amount is the trailing number. */
  function ParseCostPart(p: string): Option<(string, int)> {
    var i := TrailingNumberStart(p);
    if 3 <= i < |p| && p[0] == '_' && p[i - 2..i] == "_x" then
      Some((p[1..i - 2], ParseInt(p[i..])))
    else None
  }

  lemma ParseCostPartOf(key: string, amount: int)
    ensures ParseCostPart(CostPart(key, amount)) == Some((key, amount))
  {
    var a := "_" + key + "_x";
    var d := IntToString(amount);
    assert CostPart(key, amount) == a + d;
    TrailingNumberStartOf(a, d);
    var p := a + d;
    assert p[|a|..] == d;
    assert p[1..|a| - 2] == key;
    assert p[|a| - 2..|a|] == "_x";
    ParseIntToString(amount);
  }

  /** Read the pieces after the first, each carrying the space of `', '`. */
  function ParseLaterParts(pieces: seq<string>): Option<Cost>
    decreases |pieces|
  {
    if |pieces| == 0 then Some([])
    else if |pieces[0]| > 0 && pieces[0][0] == ' ' then
      match (ParseCostPart(pieces[0][1..]), ParseLaterParts(pieces[1..]))
      case (Some(kv), Some(rest)) => Some([kv] + rest)
      case _ => None
    else None
  }

  /** Read a `cost_str` text back into the mapping; `None` if it is not one. */
  function ParseCostStr(s: string): Option<Cost> {
    if s == "" then Some([])
    else
      var pieces := SplitOn(s, ',');
      match (ParseCostPart(pieces[0]), ParseLaterParts(pieces[1..]))
      case (Some(kv), Some(rest)) => Some([kv] + rest)
      case _ => None
  }

  /** No key contains the comma that separates the parts. */
  predicate KeysWithoutComma(cost: Cost) {
    forall i :: 0 <= i < |cost| ==> ',' !in cost[i].0
  }

  lemma CostPartWithoutComma(key: string, amount: int)
    requires ',' !in key
    ensures ',' !in CostPart(key, amount)
  {
    var d := IntToString(amount);
    assert forall j :: 0 <= j < |d| ==> IsNumberChar(d[j]);
  }

  lemma {:induction false} ParseLaterPartsOf(cost: Cost)
    ensures ParseLaterParts(Prefixed(" ", CostParts(cost))) == Some(cost)
    decreases |cost|
  {
    if |cost| > 0 {
      var parts := CostParts(cost);
      var pieces := Prefixed(" ", parts);
      var head := CostPart(cost[0].0, cost[0].1);
      assert pieces[0] == " " + head;
      assert pieces[0][1..] == head;
      ParseCostPartOf(cost[0].0, cost[0].1);
      assert parts[1..] == CostParts(cost[1..]);
      assert pieces[1..] == Prefixed(" ", CostParts(cost[1..]));
      ParseLaterPartsOf(cost[1..]);
      assert ParseLaterParts(pieces) == Some([cost[0]] + cost[1..]);
      assert [cost[0]] + cost[1..] == cost;
    }
  }

  /**
   * `cost_str` loses nothing when no key holds a comma: every key and amount,
   * in order, can be read back from the text.
   */
  lemma CostStrRoundTrip(cost: Cost)
    requires KeysWithoutComma(cost)
    ensures ParseCostStr(CostStr(cost)) == Some(cost)
  {
    if |cost| > 0 {
      var parts := CostParts(cost);
      var pieces := [parts[0]] + Prefixed(" ", parts[1..]);
      assert ", " == "," + " ";
      JoinMovesSeparatorTail(",", " ", parts);
      forall i | 0 <= i < |pieces|
        ensures ',' !in pieces[i]
      {
        if i == 0 {
          CostPartWithoutComma(cost[0].0, cost[0].1);
        } else {
          CostPartWithoutComma(cost[i].0, cost[i].1);
          assert pieces[i] == " " + parts[i];
        }
      }
      SplitOnJoin(pieces, ',');
      assert SplitOn(CostStr(cost), ',') == pieces;
      assert pieces[1..] == Prefixed(" ", parts[1..]);
      assert parts[1..] == CostParts(cost[1..]);
      ParseLaterPartsOf(cost[1..]);
      ParseCostPartOf(cost[0].0, cost[0].1);
      assert [cost[0]] + cost[1..] == cost;
    }
  }

  // ---------------------------------------------------------------------------
  // Card-name normalisation

  /** `c.lower()` for an ASCII character; other characters are left alone. */
  function LowerChar(c: char): char {
    if 'A' <= c <= 'Z' then (c as int - 'A' as int + 'a' as int) as char else c
  }

  /** `s.lower()`, ASCII only. */
  function Lower(s: string): (r: string)
    ensures |r| == |s|
    ensures forall i :: 0 <= i < |s| ==> r[i] == LowerChar(s[i])
  {
    seq(|s|, i requires 0 <= i < |s| => LowerChar(s[i]))
  }

  /**
   * The file stem both generators use: `name.replace(' ', '_')`. Spaces
   * become `_`; every other character, case included, is kept.
   */
  function FileStem(name: string): (r: string)
    ensures |r| == |name|
    ensures ' ' !in r
    ensures forall i :: 0 <= i < |name| ==> r[i] == (if name[i] == ' ' then '_' else name[i])
  {
    ReplaceCharPointwise(name, ' ', '_');
    ReplaceAll(name, " ", "_")
  }

  /**
   * The art name of `art_path_from_name`: spaces become `_`, then the whole
   * name is lower-cased.
   */
  function ArtName(name: string): (r: string)
    ensures |r| == |name|
    ensures ' ' !in r
    ensures forall i :: 0 <= i < |name| ==>
      r[i] == (if name[i] == ' ' then '_' else LowerChar(name[i]))
    ensures forall i :: 0 <= i < |r| ==> !('A' <= r[i] <= 'Z')
  {
    Lower(FileStem(name))
  }

  /** Normalising an art name again changes nothing. */
  lemma ArtNameIdempotent(name: string)
    ensures ArtName(ArtName(name)) == ArtName(name)
  {
  }

  /**
   * The art name and the file stem agree up to case: normalising the stem
   * gives the art name.
   */
  lemma ArtNameOfFileStem(name: string)
    ensures ArtName(FileStem(name)) == ArtName(name)
    ensures FileStem(ArtName(name)) == ArtName(name)
  {
  }

  /** `os.path.join(dir, name)` on a POSIX system. */
  function PathJoin(dir: string, name: string): string {
    if |name| > 0 && name[0] == '/' then name
    else if dir == "" || dir[|dir| - 1] == '/' then dir + name
    else dir + "/" + name
  }

  /** `art_path`: `os.path.join('assets', 'art')`. */
  const ArtDir := PathJoin("assets", "art")

  /** `os.path.join(output_path, 'card_images')`. */
  const CardImagesDir := PathJoin("output", "card_images")

  /**
   * `art_path_from_name(name)` before `abspath`: the art name with `.png`
   * under the art directory (a name starting with `/` replaces the directory,
   * as `os.path.join` does).
   */
  function ArtPath(name: string): (p: string)
    ensures |name| > 0 && name[0] == '/' ==> p == ArtName(name) + ".png"
    ensures !(|name| > 0 && name[0] == '/') ==> p == "assets/art/" + ArtName(name) + ".png"
  {
    PathJoin(ArtDir, ArtName(name) + ".png")
  }

  /** The card image a generator writes for `name` (`output_image_path`). */
  function OutputImagePath(name: string): (p: string)
    ensures |name| > 0 && name[0] == '/' ==> p == FileStem(name) + ".png"
    ensures !(|name| > 0 && name[0] == '/') ==>
      p == "output/card_images/" + FileStem(name) + ".png"
  {
    PathJoin(CardImagesDir, FileStem(name) + ".png")
  }
}

=== FILE: decimal.dfy ===
/**
 * Python's `str(n)` for an integer `n`, and its inverse.
 */
module Decimal {

  predicate IsDigit(c: char) {
    '0' <= c <= '9'
  }

  /** A character `str(n)` can produce: a digit or the minus sign. */
  predicate IsNumberChar(c: char) {
    IsDigit(c) || c == '-'
  }

  function DigitChar(d: int): (c: char)
    requires 0 <= d < 10
    ensures IsDigit(c)
  {
    ('0' as int + d) as char
  }

  function DigitValue(c: char): (d: int)
    requires IsDigit(c)
    ensures 0 <= d < 10
  {
    c as int - '0' as int
  }

  /** Decimal digits of `n`, most significant first, without leading zeros. */
  function NatToString(n: nat): (s: string)
    ensures |s| > 0
    ensures forall i :: 0 <= i < |s| ==> IsDigit(s[i])
  {
    if n < 10 then [DigitChar(n)]
    else NatToString(n / 10) + [DigitChar(n % 10)]
  }

  /** Python's `str(n)`: a leading `-` for a negative number. */
  function IntToString(n: int): (s: string)
    ensures |s| > 0
    ensures forall i :: 0 <= i < |s| ==> IsNumberChar(s[i])
  {
    if n < 0 then "-" + NatToString(-n) else NatToString(n)
  }

  /** The number a string of digits denotes. */
  function ParseNat(s: string): nat
    requires forall i :: 0 <= i < |s| ==> IsDigit(s[i])
    decreases |s|
  {
    if |s| == 0 then 0
    else ParseNat(s[..|s| - 1]) * 10 + DigitValue(s[|s| - 1])
  }

  /** Reads back the text `str(n)` writes for an integer; any other string reads as 0. */
  function ParseInt(s: string): int {
    if |s| > 0 && s[0] == '-' && forall i :: 1 <= i < |s| ==> IsDigit(s[i]) then
      -(ParseNat(s[1..]) as int)
    else if forall i :: 0 <= i < |s| ==> IsDigit(s[i]) then ParseNat(s)
    else 0
  }

  lemma {:induction false} ParseNatToString(n: nat)
    ensures ParseNat(NatToString(n)) == n
  {
    if n >= 10 {
      ParseNatToString(n / 10);
      var s := NatToString(n);
      assert s[..|s| - 1] == NatToString(n / 10);
    }
  }

  /** `str` loses nothing: reading the text back gives the number. */
  lemma ParseIntToString(n: int)
    ensures ParseInt(IntToString(n)) == n
  {
    var s := IntToString(n);
    if n < 0 {
      assert s[1..] == NatToString(-n);
      ParseNatToString(-n);
    } else {
      ParseNatToString(n);
    }
  }
}

=== FILE: entities.dfy ===
/**
 * The object-id counter and the three entity constructors `newCard`,
 * `newOnus` and `newBuilding` of the data script (build_data.js), and the
 * order in which the script's tables call them.
 *
 * The script's module-level counter `objectId` is threaded through explicitly
 * as an `IdCounter` value. An absent or `null` field of the argument object is
 * `None`; `??` replaces exactly those by the default.
 */
module Entities {
  import opened Wrappers
  import ResourceModel

  /** The `objectId` counter: the id `newObjectId` hands out next. */
  datatype IdCounter = IdCounter(next: int)

  /** `let objectId = 1`. */
  const InitialCounter := IdCounter(1)

  /** `newObjectId()`: hand out the current value, then increment the counter. */
  function NewObjectId(c: IdCounter): (res: (int, IdCounter))
    ensures res.0 == c.next
    ensures res.1.next == res.0 + 1
  {
    (c.next, IdCounter(c.next + 1))
  }

  /**
   * What a `cost` or `profits` field holds: an object literal of counts (such
   * as `{production: 2, clay: 2}`) or a resource set built by `newResourceSet`.
   */
  datatype Quantities =
    | Literal(counts: seq<(string, int)>)
    | Scored(resources: ResourceModel.ResourceSet)

  /** `{}`, the default `profits` of a building. */
  const NoQuantities := Literal([])

  /** The argument object of a constructor: every field it may read. */
  datatype Data = Data(
    tier: Option<int>,
    name: Option<string>,
    cardText: Option<string>,
    flavorText: Option<string>,
    productionPower: Option<int>,
    combatPower: Option<int>,
    defence: Option<int>,
    cost: Option<Quantities>,
    profits: Option<Quantities>)

  /** The record a constructor returns; the variant is its `type` field. */
  datatype Entity =
    | Card(
        objectId: int, tier: int, name: Option<string>, cardText: Option<string>,
        flavorText: Option<string>, productionPower: Option<int>,
        combatPower: Option<int>, cost: Option<Quantities>)
    | Onus(
        objectId: int, tier: int, name: Option<string>,
        flavorText: Option<string>, cost: Option<Quantities>)
    | Building(
        objectId: int, tier: int, name: Option<string>, cardText: Option<string>,
        flavorText: Option<string>, defence: Option<int>,
        cost: Option<Quantities>, profits: Quantities)

  /** The `type` string each constructor writes. */
  function TypeName(e: Entity): string {
    match e
    case Card(_, _, _, _, _, _, _, _) => "card"
    case Onus(_, _, _, _, _) => "onus"
    case Building(_, _, _, _, _, _, _, _) => "building"
  }

  /**
   * `newCard(data)`: a fresh id, tier defaulting to 1 only when absent, and
   * the card fields copied; any other field of `data` is dropped.
   */
  function NewCard(data: Data, c: IdCounter): (res: (Entity, IdCounter))
    ensures res.0.Card? && TypeName(res.0) == "card"
    ensures res.0.objectId == c.next && res.1.next == c.next + 1
    ensures data.tier.Some? ==> res.0.tier == data.tier.value
    ensures data.tier.None? ==> res.0.tier == 1
    ensures res.0.name == data.name && res.0.cardText == data.cardText
    ensures res.0.flavorText == data.flavorText
    ensures res.0.productionPower == data.productionPower
    ensures res.0.combatPower == data.combatPower
    ensures res.0.cost == data.cost
  {
    var (id, c') := NewObjectId(c);
    (Card(id, data.tier.GetOr(1), data.name, data.cardText, data.flavorText,
          data.productionPower, data.combatPower, data.cost), c')
  }

  /**
   * `newOnus(data)`: a fresh id, tier defaulting to 1 only when absent, and
   * name, flavour text and cost copied.
   */
  function NewOnus(data: Data, c: IdCounter): (res: (Entity, IdCounter))
    ensures res.0.Onus? && TypeName(res.0) == "onus"
    ensures res.0.objectId == c.next && res.1.next == c.next + 1
    ensures data.tier.Some? ==> res.0.tier == data.tier.value
    ensures data.tier.None? ==> res.0.tier == 1
    ensures res.0.name == data.name && res.0.flavorText == data.flavorText
    ensures res.0.cost == data.cost
  {
    var (id, c') := NewObjectId(c);
    (Onus(id, data.tier.GetOr(1), data.name, data.flavorText, data.cost), c')
  }

  /**
   * `newBuilding(data)`: a fresh id, tier defaulting to 0 and profits to `{}`
   * only when absent, and the other building fields copied.
   */
  function NewBuilding(data: Data, c: IdCounter): (res: (Entity, IdCounter))
    ensures res.0.Building? && TypeName(res.0) == "building"
    ensures res.0.objectId == c.next && res.1.next == c.next + 1
    ensures data.tier.Some? ==> res.0.tier == data.tier.value
    ensures data.tier.None? ==> res.0.tier == 0
    ensures data.profits.Some? ==> res.0.profits == data.profits.value
    ensures data.profits.None? ==> res.0.profits == Literal([])
    ensures res.0.name == data.name && res.0.cardText == data.cardText
    ensures res.0.flavorText == data.flavorText
    ensures res.0.defence == data.defence && res.0.cost == data.cost
  {
    var (id, c') := NewObjectId(c);
    (Building(id, data.tier.GetOr(0), data.name, data.cardText, data.flavorText,
              data.defence, data.cost, data.profits.GetOr(NoQuantities)), c')
  }

  /** Which constructor a table uses. */
  datatype Kind = CardKind | OnusKind | BuildingKind

  function Construct(kind: Kind, data: Data, c: IdCounter): (res: (Entity, IdCounter))
  {
    match kind
    case CardKind => NewCard(data, c)
    case OnusKind => NewOnus(data, c)
    case BuildingKind => NewBuilding(data, c)
  }

  /**
   * A table literal `[newX({...}), newX({...}), ...]`: the elements are
   * constructed left to right, each drawing the next id. The ids are the
   * counter's value onwards, one per element, and the counter ends past them.
   */
  function BuildTable(kind: Kind, rows: seq<Data>, c: IdCounter): (res: (seq<Entity>, IdCounter))
    ensures |res.0| == |rows|
    ensures res.1.next == c.next + |rows|
    ensures forall i :: 0 <= i < |rows| ==>
      res.0[i] == Construct(kind, rows[i], IdCounter(c.next + i)).0
    ensures forall i :: 0 <= i < |rows| ==> res.0[i].objectId == c.next + i
    decreases |rows|
  {
    if |rows| == 0 then ([], c)
    else
      var (e, c1) := Construct(kind, rows[0], c);
      var (rest, c2) := BuildTable(kind, rows[1..], c1);
      assert forall i :: 1 <= i < |rows| ==> rows[1..][i - 1] == rows[i];
      ([e] + rest, c2)
  }

  /** The three tables, in the order the script declares them. */
  datatype Tables = Tables(buildings: seq<Entity>, cards: seq<Entity>, onus: seq<Entity>)

  /** `buildingData`, then `cardData`, then `onusData`, from a fresh counter. */
  function BuildScriptTables(buildings: seq<Data>, cards: seq<Data>, onus: seq<Data>): Tables {
    var (b, c1) := BuildTable(BuildingKind, buildings, InitialCounter);
    var (c, c2) := BuildTable(CardKind, cards, c1);
    var (o, _) := BuildTable(OnusKind, onus, c2);
    Tables(b, c, o)
  }

  /** Every id of the three tables, in construction order. */
  function AllIds(t: Tables): seq<int> {
    var all := t.buildings + t.cards + t.onus;
    seq(|all|, i requires 0 <= i < |all| => all[i].objectId)
  }

  /** Three tables numbered 1, 2, 3, ... one after the other are numbered 1..N together. */
  lemma ConcatIds(b: seq<Entity>, c: seq<Entity>, o: seq<Entity>)
    requires forall i :: 0 <= i < |b| ==> b[i].objectId == 1 + i
    requires forall i :: 0 <= i < |c| ==> c[i].objectId == 1 + |b| + i
    requires forall i :: 0 <= i < |o| ==> o[i].objectId == 1 + |b| + |c| + i
    ensures var ids := AllIds(Tables(b, c, o));
      && |ids| == |b| + |c| + |o|
      && (forall i :: 0 <= i < |ids| ==> ids[i] == i + 1)
  {
    var all := b + c + o;
    forall i | 0 <= i < |all|
      ensures all[i].objectId == i + 1
    {
      if i < |b| {
        assert all[i] == b[i];
      } else if i < |b| + |c| {
        assert all[i] == c[i - |b|];
      } else {
        assert all[i] == o[i - |b| - |c|];
      }
    }
  }

  /**
   * Ids are consecutive from 1 in construction order across all three tables,
   * hence pairwise distinct.
   */
  lemma TableIdsConsecutive(buildings: seq<Data>, cards: seq<Data>, onus: seq<Data>)
    ensures var ids := AllIds(BuildScriptTables(buildings, cards, onus));
      && |ids| == |buildings| + |cards| + |onus|
      && (forall i :: 0 <= i < |ids| ==> ids[i] == i + 1)
      && (forall i, j :: 0 <= i < j < |ids| ==> ids[i] != ids[j])
  {
    var (b, c1) := BuildTable(BuildingKind, buildings, InitialCounter);
    var (c, c2) := BuildTable(CardKind, cards, c1);
    var (o, _) := BuildTable(OnusKind, onus, c2);
    assert BuildScriptTables(buildings, cards, onus) == Tables(b, c, o);
    ConcatIds(b, c, o);
  }

  /**
   * The script has 15 buildings, 9 cards and 4 onus tiles: buildings get ids
   * 1..15, cards 16..24 and onus tiles 25..28.
   */
  lemma ScriptIdRanges(buildings: seq<Data>, cards: seq<Data>, onus: seq<Data>)
    requires |buildings| == 15 && |cards| == 9 && |onus| == 4
    ensures var t := BuildScriptTables(buildings, cards, onus);
      && (forall i :: 0 <= i < 15 ==> t.buildings[i].objectId == 1 + i)
      && (forall i :: 0 <= i < 9 ==> t.cards[i].objectId == 16 + i)
      && (forall i :: 0 <= i < 4 ==> t.onus[i].objectId == 25 + i)
  {
  }
}

=== FILE: resource_model.dfy ===
/**
 * The resource model of the data script: the `RESOURCES` vocabulary, the
 * `VALUES` table of per-unit balance values, `newResourceSet` and
 * `computeValue` (build_data.js).
 *
 * JavaScript numbers are modelled as `Option<int>`: `None` is `NaN`, which is
 * also what `undefined` turns into under `*` and `+`. Every count and weight in
 * the script is a small integer, so no rounding arises.
 */
module ResourceModel {
  import opened Wrappers

  /** The five resources of the `RESOURCES` table, in declaration order. */
  datatype Resource = Clay | Metal | Honey | Larvae | Clarity

  /** The property name the script uses for a resource. */
  function Key(r: Resource): string {
    match r
    case Clay => "clay"
    case Metal => "metal"
    case Honey => "honey"
    case Larvae => "larvae"
    case Clarity => "clarity"
  }

  /** The `VALUES` table, in declaration order. */
  const Values: seq<(string, int)> := [
    ("clay", 1), ("metal", 2), ("honey", 2), ("larvae", 3), ("clarity", 5),
    ("card_draw", 3), ("card_trash", 2), ("explore", 3)
  ]

  /** The first entry of `table` under `key`, or `None` when there is none. */
  function Lookup(table: seq<(string, int)>, key: string): Option<int> {
    if |table| == 0 then None
    else if table[0].0 == key then Some(table[0].1)
    else Lookup(table[1..], key)
  }

  /** `VALUES[key]`: `None` (JavaScript `undefined`) for a key the table lacks. */
  function UnitValue(key: string): Option<int> {
    Lookup(Values, key)
  }

  /** JavaScript `a * b` where either operand may be `NaN` or `undefined`. */
  function Times(a: Option<int>, b: Option<int>): Option<int> {
    if a.Some? && b.Some? then Some(a.value * b.value) else None
  }

  /** JavaScript `a + b` where either operand may be `NaN`. */
  function Plus(a: Option<int>, b: Option<int>): Option<int> {
    if a.Some? && b.Some? then Some(a.value + b.value) else None
  }

  /** An own property of an object, as `computeValue` sees it: key and count. */
  type Entry = (string, Option<int>)

  /** The entry has a table weight and a defined count. */
  predicate Defined(e: Entry) {
    UnitValue(e.0).Some? && e.1.Some?
  }

  /**
   * Reference sum: weight times count over the entries, ignoring any that are
   * not defined (a plain mathematical sum, with no `NaN`).
   */
  function WeightedTotal(entries: seq<Entry>): int {
    if |entries| == 0 then 0
    else
      (if Defined(entries[0]) then UnitValue(entries[0].0).value * entries[0].1.value else 0)
      + WeightedTotal(entries[1..])
  }

  lemma {:induction false} WeightedTotalSnoc(entries: seq<Entry>)
    requires |entries| > 0
    ensures
      var last := entries[|entries| - 1];
      WeightedTotal(entries) ==
        WeightedTotal(entries[..|entries| - 1])
        + (if Defined(last) then UnitValue(last.0).value * last.1.value else 0)
    decreases |entries|
  {
    if |entries| > 1 {
      var init := entries[..|entries| - 1];
      WeightedTotalSnoc(entries[1..]);
      assert entries[1..][..|entries| - 2] == init[1..];
      assert init[0] == entries[0];
    }
  }

  /**
   * `computeValue`: start from 0 and, for every own property in order, add
   * `VALUES[key] * count`. The result is a number exactly when every key has a
   * weight and every count is defined, and then it is the weighted sum.
   */
  function ComputeValue(entries: seq<Entry>): (r: Option<int>)
    ensures r.Some? <==> forall i :: 0 <= i < |entries| ==> Defined(entries[i])
    ensures r.Some? ==> r.value == WeightedTotal(entries)
    decreases |entries|
  {
    if |entries| == 0 then Some(0)
    else
      var last := entries[|entries| - 1];
      var before := entries[..|entries| - 1];
      WeightedTotalSnoc(entries);
      assert forall i :: 0 <= i < |before| ==> before[i] == entries[i];
      Plus(ComputeValue(before), Times(UnitValue(last.0), last.1))
  }

  /** The five counts a resource set keeps (`undefined` is `None`). */
  datatype Counts = Counts(
    clay: Option<int>,
    metal: Option<int>,
    honey: Option<int>,
    larvae: Option<int>,
    clarity: Option<int>)

  /** A resource set: the five counts with the computed `value` tacked on. */
  datatype ResourceSet = ResourceSet(counts: Counts, value: Option<int>)

  function Count(c: Counts, r: Resource): Option<int> {
    match r
    case Clay => c.clay
    case Metal => c.metal
    case Honey => c.honey
    case Larvae => c.larvae
    case Clarity => c.clarity
  }

  /** The own properties of the object before `value` is attached, in order. */
  function CountEntries(c: Counts): seq<Entry> {
    [("clay", c.clay), ("metal", c.metal), ("honey", c.honey),
     ("larvae", c.larvae), ("clarity", c.clarity)]
  }

  /** `data.key` on the argument object: `undefined` when absent. */
  function Field(data: map<string, int>, key: string): Option<int> {
    if key in data then Some(data[key]) else None
  }

  /**
   * `newResourceSet(data)`: keep the five resource counts of `data` and attach
   * the value computed from them. The value is a number only when all five are
   * present, and then it is 1 clay + 2 metal + 2 honey + 3 larvae + 5 clarity.
   */
  function NewResourceSet(data: map<string, int>): (rs: ResourceSet)
    ensures forall r :: Count(rs.counts, r) == Field(data, Key(r))
    ensures rs.value.Some? <==>
      "clay" in data && "metal" in data && "honey" in data
      && "larvae" in data && "clarity" in data
    ensures rs.value.Some? ==>
      rs.value.value ==
        1 * data["clay"] + 2 * data["metal"] + 2 * data["honey"]
        + 3 * data["larvae"] + 5 * data["clarity"]
  {
    var counts := Counts(
      Field(data, "clay"), Field(data, "metal"), Field(data, "honey"),
      Field(data, "larvae"), Field(data, "clarity"));
    var entries := CountEntries(counts);
    assert UnitValue("clay") == Some(1) && UnitValue("metal") == Some(2);
    assert UnitValue("honey") == Some(2) && UnitValue("larvae") == Some(3);
    assert UnitValue("clarity") == Some(5);
    assert (forall i :: 0 <= i < |entries| ==> Defined(entries[i])) <==>
      Defined(entries[0]) && Defined(entries[1]) && Defined(entries[2])
      && Defined(entries[3]) && Defined(entries[4]);
    ResourceSet(counts, ComputeValue(entries))
  }

  /** Any property of `data` other than the five resources is dropped. */
  lemma OtherKeysDropped(data: map<string, int>, key: string, n: int)
    requires forall r :: Key(r) != key
    ensures NewResourceSet(data[key := n]) == NewResourceSet(data)
  {
    assert Key(Clay) != key && Key(Metal) != key && Key(Honey) != key;
    assert Key(Larvae) != key && Key(Clarity) != key;
  }

  /**
   * `value` is computed from the counts alone. Had it been attached before the
   * sum, the `value` property itself would have been iterated, and with no
   * `VALUES` weight it would have made the total `NaN`.
   */
  lemma ValueNeverCountsItself(data: map<string, int>)
    ensures NewResourceSet(data).value == ComputeValue(CountEntries(NewResourceSet(data).counts))
    ensures ComputeValue(CountEntries(NewResourceSet(data).counts) + [("value", NewResourceSet(data).value)]).None?
  {
    var rs := NewResourceSet(data);
    var e := CountEntries(rs.counts) + [("value", rs.value)];
    assert UnitValue("value").None?;
    assert !Defined(e[5]);
  }

  /**
   * With every count present, one more unit of a resource raises the value by
   * exactly that resource's `VALUES` weight.
   */
  lemma RaiseOneCount(data: map<string, int>, r: Resource)
    requires forall r' :: Key(r') in data
    ensures UnitValue(Key(r)).Some?
    ensures NewResourceSet(data).value.Some?
    ensures NewResourceSet(data[Key(r) := data[Key(r)] + 1]).value
         == Some(NewResourceSet(data).value.value + UnitValue(Key(r)).value)
  {
    assert Key(Clay) in data && Key(Metal) in data && Key(Honey) in data;
    assert Key(Larvae) in data && Key(Clarity) in data;
  }

  /** A single absent resource makes the value `NaN`. */
  lemma MissingCountIsNaN(data: map<string, int>, r: Resource)
    requires Key(r) !in data
    ensures NewResourceSet(data).value.None?
    ensures Count(NewResourceSet(data).counts, r).None?
  {
  }

  /**
   * Every `newResourceSet` call in the script names fewer than five
   * resources (the first four buildings' profits, then the four onus costs),
   * so every one of their values is `NaN`.
   */
  lemma ScriptResourceSetsAreNaN()
    ensures NewResourceSet(map["clay" := 2]).value.None?
    ensures NewResourceSet(map["metal" := 1]).value.None?
    ensures NewResourceSet(map["honey" := 1]).value.None?
    ensures NewResourceSet(map["larvae" := 1]).value.None?
    ensures NewResourceSet(map["clay" := 2, "metal" := 1]).value.None?
    ensures NewResourceSet(map["metal" := 2]).value.None?
    ensures NewResourceSet(map["larvae" := 1]).value.None?
    ensures NewResourceSet(map["honey" := 2]).value.None?
  {
    MissingCountIsNaN(map["clay" := 2], Clarity);
    MissingCountIsNaN(map["metal" := 1], Clarity);
    MissingCountIsNaN(map["honey" := 1], Clarity);
    MissingCountIsNaN(map["larvae" := 1], Clarity);
    MissingCountIsNaN(map["clay" := 2, "metal" := 1], Clarity);
    MissingCountIsNaN(map["metal" := 2], Clarity);
    MissingCountIsNaN(map["honey" := 2], Clarity);
  }
}

=== FILE: spritesheet.dfy ===
/**
 * The integer layout of `create_spritesheet` (generate_images.py): the size of
 * the sheet, the offset each image is pasted at, and the three ways the
 * function stops before saving.
 *
 * Image loading, pasting and saving are not modelled; the first image's size
 * is a parameter.
 */
module Spritesheet {
  import opened Wrappers

  /** Python's `a // b`: the quotient rounded towards minus infinity. */
  function FloorDiv(a: int, b: int): int
    requires b != 0
  {
    if b > 0 then a / b else (-a) / (-b)
  }

  /** Python's `a % b`: the remainder, with the sign of the divisor. */
  function FloorMod(a: int, b: int): int
    requires b != 0
  {
    a - b * FloorDiv(a, b)
  }

  /** `//` and `%` split a number the way Python promises. */
  lemma FloorDivMod(a: int, b: int)
    requires b != 0
    ensures a == b * FloorDiv(a, b) + FloorMod(a, b)
    ensures b > 0 ==> 0 <= FloorMod(a, b) < b
    ensures b < 0 ==> b < FloorMod(a, b) <= 0
  {
    if b < 0 {
      var q := (-a) / (-b);
      assert -a == (-b) * q + (-a) % (-b);
      assert a - b * q == -((-a) % (-b));
    }
  }

  /** The pixel size of an image as PIL reports it. */
  datatype ImageSize = ImageSize(width: nat, height: nat)

  /** `(sheet_width, sheet_height)`: may be negative before PIL checks it. */
  datatype SheetSize = SheetSize(width: int, height: int)

  /**
   * One column pitch per column and one row pitch per row, less the margin
   * after the last one, where a pitch is the image size plus the margin.
   */
  function Sheet(cols: int, rows: int, tile: ImageSize, margin: int): SheetSize {
    var totalWidth := tile.width + margin;
    var totalHeight := tile.height + margin;
    SheetSize(cols * totalWidth - margin, rows * totalHeight - margin)
  }

  /** The `(x, y)` where image number `idx` is pasted. */
  function TileOffset(idx: int, cols: int, tile: ImageSize, margin: int): (int, int)
    requires cols != 0
  {
    (FloorMod(idx, cols) * (tile.width + margin), FloorDiv(idx, cols) * (tile.height + margin))
  }

  /** Why `create_spritesheet` stops early. */
  datatype SheetError =
    | NoImages           // `filenames[0]` raises IndexError
    | NegativeSheetSize  // `Image.new` raises ValueError for a negative size
    | ZeroColumns        // `idx % 0` raises ZeroDivisionError

  /** The sheet's size and the paste offsets, in the order of `filenames`. */
  datatype Layout = Layout(size: SheetSize, offsets: seq<(int, int)>)

  /**
   * The layout part of `create_spritesheet(filenames, (cols, rows), margin)`
   * for `count` file names whose first image has size `first`.
   */
  method CreateSpritesheet(count: nat, first: ImageSize, cols: int, rows: int, margin: int)
    returns (r: Result<Layout, SheetError>)
    ensures count == 0 ==> r == Failure(NoImages)
    ensures count > 0 && (Sheet(cols, rows, first, margin).width < 0 || Sheet(cols, rows, first, margin).height < 0)
      ==> r == Failure(NegativeSheetSize)
    ensures count > 0 && cols == 0
      && Sheet(cols, rows, first, margin).width >= 0
      && Sheet(cols, rows, first, margin).height >= 0
      ==> r == Failure(ZeroColumns)
    ensures r.Success? <==>
      count > 0 && cols != 0
      && Sheet(cols, rows, first, margin).width >= 0
      && Sheet(cols, rows, first, margin).height >= 0
    ensures r.Success? ==> r.value.size == Sheet(cols, rows, first, margin)
    ensures r.Success? ==> |r.value.offsets| == count
    ensures r.Success? ==> forall i :: 0 <= i < count ==>
      r.value.offsets[i] == TileOffset(i, cols, first, margin)
  {
    if count == 0 {
      return Failure(NoImages);
    }
    var sheet := Sheet(cols, rows, first, margin);
    if sheet.width < 0 || sheet.height < 0 {
      return Failure(NegativeSheetSize);
    }
    if cols == 0 {
      return Failure(ZeroColumns);
    }
    var offsets: seq<(int, int)> := [];
    var idx := 0;
    while idx < count
      invariant 0 <= idx <= count
      invariant |offsets| == idx
      invariant forall i :: 0 <= i < idx ==> offsets[i] == TileOffset(i, cols, first, margin)
    {
      offsets := offsets + [TileOffset(idx, cols, first, margin)];
      idx := idx + 1;
    }
    return Success(Layout(sheet, offsets));
  }

  lemma MulMono(a: int, b: int, c: int)
    requires a <= b && c >= 0
    ensures a * c <= b * c
  {
  }

  /** Column and row of a non-negative index. */
  lemma ColumnRow(idx: int, cols: int)
    requires idx >= 0 && cols > 0
    ensures FloorDiv(idx, cols) == idx / cols && FloorMod(idx, cols) == idx % cols
    ensures 0 <= idx % cols < cols && idx / cols >= 0
    ensures idx == (idx / cols) * cols + idx % cols
  {
  }

  /** Every index below `cols * rows` lands wholly inside the sheet. */
  lemma TileInsideSheet(idx: int, cols: int, rows: int, tile: ImageSize, margin: int)
    requires cols > 0 && margin >= 0
    requires 0 <= idx < cols * rows
    ensures var (x, y) := TileOffset(idx, cols, tile, margin);
      var sheet := Sheet(cols, rows, tile, margin);
      0 <= x && x + tile.width <= sheet.width
      && 0 <= y && y + tile.height <= sheet.height
  {
    var pw := tile.width + margin;
    var ph := tile.height + margin;
    ColumnRow(idx, cols);
    var c := idx % cols;
    var q := idx / cols;
    MulMono(c, cols - 1, pw);
    MulMono(0, c, pw);
    MulMono(0, q, ph);
    if q >= rows {
      MulMono(rows, q, cols);
      assert false;
    }
    MulMono(q, rows - 1, ph);
  }

  /** An index from `cols * rows` on is pasted below the sheet, so PIL clips it away. */
  lemma OverflowTileBelowSheet(idx: int, cols: int, rows: int, tile: ImageSize, margin: int)
    requires cols > 0 && margin >= 0 && rows >= 0
    requires idx >= cols * rows
    ensures TileOffset(idx, cols, tile, margin).1 >= Sheet(cols, rows, tile, margin).height
  {
    var ph := tile.height + margin;
    ColumnRow(idx, cols);
    var q := idx / cols;
    if q < rows {
      MulMono(q + 1, rows, cols);
      assert false;
    }
    MulMono(rows, q, ph);
  }

  /** Two images are pasted onto rectangles that do not overlap. */
  predicate Disjoint(a: (int, int), b: (int, int), tile: ImageSize) {
    a.0 + tile.width <= b.0 || b.0 + tile.width <= a.0
    || a.1 + tile.height <= b.1 || b.1 + tile.height <= a.1
  }

  /** With a non-negative margin, distinct images never overlap. */
  lemma TilesDisjoint(i: int, j: int, cols: int, tile: ImageSize, margin: int)
    requires cols > 0 && margin >= 0
    requires 0 <= i && 0 <= j && i != j
    ensures Disjoint(TileOffset(i, cols, tile, margin), TileOffset(j, cols, tile, margin), tile)
  {
    var pw := tile.width + margin;
    var ph := tile.height + margin;
    ColumnRow(i, cols);
    ColumnRow(j, cols);
    var ci, qi := i % cols, i / cols;
    var cj, qj := j % cols, j / cols;
    if ci < cj {
      MulMono(ci + 1, cj, pw);
    } else if cj < ci {
      MulMono(cj + 1, ci, pw);
    } else if qi < qj {
      MulMono(qi + 1, qj, ph);
    } else {
      assert qi != qj;
      MulMono(qj + 1, qi, ph);
    }
  }

  /** The defaults of `create_spritesheet`: a 10 by 7 grid with a margin of 3. */
  const DefaultColumns := 10
  const DefaultRows := 7
  const DefaultMargin := 3

  /**
   * With the defaults the sheet is `10w + 27` by `7h + 18`, and each of the
   * first 70 images lies inside it without overlapping another.
   */
  lemma DefaultSheetHoldsSeventy(i: int, j: int, tile: ImageSize)
    requires 0 <= i < 70 && 0 <= j < 70 && i != j
    ensures Sheet(DefaultColumns, DefaultRows, tile, DefaultMargin)
      == SheetSize(10 * tile.width + 27, 7 * tile.height + 18)
    ensures var (x, y) := TileOffset(i, DefaultColumns, tile, DefaultMargin);
      0 <= x && x + tile.width <= 10 * tile.width + 27
      && 0 <= y && y + tile.height <= 7 * tile.height + 18
    ensures Disjoint(TileOffset(i, DefaultColumns, tile, DefaultMargin),
                     TileOffset(j, DefaultColumns, tile, DefaultMargin), tile)
  {
    TileInsideSheet(i, DefaultColumns, DefaultRows, tile, DefaultMargin);
    TilesDisjoint(i, j, DefaultColumns, tile, DefaultMargin);
  }
}

=== FILE: strings.dfy ===
/**
 * Text operations shared by the data script (JavaScript `replaceAll`) and the
 * image script (Python `str.replace`, `', '.join`).
 */
module Strings {

  /** `t` occurs as a contiguous piece of `s`. */
  predicate Occurs(s: string, t: string)
    decreases |s|
  {
    |t| <= |s| && (s[..|t|] == t || Occurs(s[1..], t))
  }

  /** `p` is a prefix of `s`. */
  predicate StartsWith(s: string, p: string) {
    |p| <= |s| && s[..|p|] == p
  }

  /**
   * Replace every occurrence of `pat` in `s` by `rep`, scanning left to right
   * and resuming after each match, so matches never overlap. This is what both
   * JavaScript's `String.prototype.replaceAll` with a string pattern and
   * Python's `str.replace` do for a non-empty pattern.
   */
  function ReplaceAll(s: string, pat: string, rep: string): string
    requires |pat| > 0
    decreases |s|
  {
    if |s| < |pat| then s
    else if s[..|pat|] == pat then rep + ReplaceAll(s[|pat|..], pat, rep)
    else [s[0]] + ReplaceAll(s[1..], pat, rep)
  }

  /** Replacing a pattern that does not occur changes nothing. */
  lemma {:induction false} ReplaceAllWithoutOccurrence(s: string, pat: string, rep: string)
    requires |pat| > 0
    requires !Occurs(s, pat)
    ensures ReplaceAll(s, pat, rep) == s
    decreases |s|
  {
    if |s| >= |pat| {
      ReplaceAllWithoutOccurrence(s[1..], pat, rep);
      assert [s[0]] + s[1..] == s;
    }
  }

  /**
   * Replacing a single character by a single character is a pointwise map:
   * the length is kept, and exactly the positions holding `a` now hold `b`.
   */
  lemma {:induction false} ReplaceCharPointwise(s: string, a: char, b: char)
    ensures |ReplaceAll(s, [a], [b])| == |s|
    ensures forall i :: 0 <= i < |s| ==>
      ReplaceAll(s, [a], [b])[i] == (if s[i] == a then b else s[i])
    decreases |s|
  {
    if |s| > 0 {
      ReplaceCharPointwise(s[1..], a, b);
      var r := ReplaceAll(s, [a], [b]);
      var tail := ReplaceAll(s[1..], [a], [b]);
      assert r == [if s[0] == a then b else s[0]] + tail;
      forall i | 0 <= i < |s|
        ensures r[i] == (if s[i] == a then b else s[i])
      {
        if i > 0 {
          assert r[i] == tail[i - 1];
          assert s[i] == s[1..][i - 1];
        }
      }
    }
  }

  /** Python's `sep.join(parts)`. */
  function Join(sep: string, parts: seq<string>): string
    decreases |parts|
  {
    if |parts| == 0 then ""
    else if |parts| == 1 then parts[0]
    else parts[0] + sep + Join(sep, parts[1..])
  }

  /** The index of the first `c` in `s`. */
  function IndexOf(s: string, c: char): (i: nat)
    requires c in s
    ensures i < |s| && s[i] == c && c !in s[..i]
  {
    if s[0] == c then 0
    else
      var j := IndexOf(s[1..], c);
      assert s[..j + 1] == [s[0]] + s[1..][..j];
      1 + j
  }

  /** Cut `s` at every `c`; the pieces never contain `c`. */
  function SplitOn(s: string, c: char): (pieces: seq<string>)
    ensures |pieces| > 0
    ensures forall i :: 0 <= i < |pieces| ==> c !in pieces[i]
    decreases |s|
  {
    if c !in s then [s]
    else
      var i := IndexOf(s, c);
      [s[..i]] + SplitOn(s[i + 1..], c)
  }

  /** The first `c` of `a + [c] + b` is the one after `a` when `a` has none. */
  lemma {:induction false} IndexOfAfter(a: string, c: char, b: string)
    requires c !in a
    ensures c in a + [c] + b && IndexOf(a + [c] + b, c) == |a|
    decreases |a|
  {
    var s := a + [c] + b;
    assert s[|a|] == c;
    if |a| > 0 {
      assert s[1..] == a[1..] + [c] + b;
      assert a[0] != c;
      IndexOfAfter(a[1..], c, b);
    }
  }

  /** Cutting at the first `c` splits off the piece before it. */
  lemma SplitOnFirst(a: string, c: char, b: string)
    requires c !in a
    ensures SplitOn(a + [c] + b, c) == [a] + SplitOn(b, c)
  {
    var s := a + [c] + b;
    IndexOfAfter(a, c, b);
    assert s[..|a|] == a;
    assert s[|a| + 1..] == b;
  }

  /** Cutting a join at its separator character gives back the parts. */
  lemma {:induction false} SplitOnJoin(parts: seq<string>, c: char)
    requires |parts| > 0
    requires forall i :: 0 <= i < |parts| ==> c !in parts[i]
    ensures SplitOn(Join([c], parts), c) == parts
    decreases |parts|
  {
    if |parts| > 1 {
      var rest := Join([c], parts[1..]);
      assert Join([c], parts) == parts[0] + [c] + rest;
      SplitOnFirst(parts[0], c, rest);
      SplitOnJoin(parts[1..], c);
      assert [parts[0]] + parts[1..] == parts;
    }
  }

  /** Every part, with `p` put in front of it. */
  function Prefixed(p: string, parts: seq<string>): (r: seq<string>)
    ensures |r| == |parts|
    ensures forall i :: 0 <= i < |parts| ==> r[i] == p + parts[i]
  {
    seq(|parts|, i requires 0 <= i < |parts| => p + parts[i])
  }

  /**
   * A two-part separator is the first part as separator, with the second part
   * moved to the front of every later piece.
   */
  lemma {:induction false} JoinMovesSeparatorTail(a: string, b: string, parts: seq<string>)
    requires |parts| > 0
    ensures Join(a + b, parts) == Join(a, [parts[0]] + Prefixed(b, parts[1..]))
    decreases |parts|
  {
    if |parts| > 1 {
      var tail := parts[1..];
      JoinMovesSeparatorTail(a, b, tail);
      var moved := [tail[0]] + Prefixed(b, tail[1..]);
      var full := [parts[0]] + Prefixed(b, tail);
      assert full[1..] == Prefixed(b, tail);
      assert Prefixed(b, tail) == [b + tail[0]] + Prefixed(b, tail[1..]);
      // Both sides begin with parts[0] + a + b + tail[0]; what follows agrees by the
      // hypothesis on the tail.
      var jt := Join(a, moved);
      var jf := Join(a, Prefixed(b, tail));
      JoinConsPrefix(b, tail[0], Prefixed(b, tail[1..]), a);
      assert jf == b + jt;
    }
  }

  /** Putting `p` in front of the first part puts it in front of the join. */
  lemma JoinConsPrefix(p: string, first: string, rest: seq<string>, sep: string)
    ensures Join(sep, [p + first] + rest) == p + Join(sep, [first] + rest)
  {
    assert ([p + first] + rest)[1..] == rest;
    assert ([first] + rest)[1..] == rest;
  }
}

=== FILE: symbols.dfy ===
/**
 * `SYMBOL_MAP` and `symbolReplace` of the data script (build_data.js): a fixed,
 * ordered list of literal replace-all steps turning tokens such as `_honey` or
 * `_x` into display glyphs.
 *
 * The script's file holds the glyphs as UTF-8 bytes decoded as Windows-1252.
 * Ten literals re-encode to complete emoji or symbols, and `SymbolMap` uses
 * those. The literals of `_honey`, `_larvae`, `_combatpower`, `_production` and
 * `_d2` each lost a byte that Windows-1252 cannot show, so `SymbolMap` restores
 * the emoji they begin. `LiteralSymbolMap` keeps the characters as the file
 * has them. Both tables are well formed, and every proof here uses only that a
 * glyph is non-empty and holds no `_`, ASCII letter or ASCII digit.
 */
module Symbols {
  import opened Strings

  /** A character a token can be made of: `_`, an ASCII letter or digit. */
  predicate IsWordChar(c: char) {
    c == '_' || ('a' <= c <= 'z') || ('A' <= c <= 'Z') || ('0' <= c <= '9')
  }

  /** Every character of `s` is a word character. */
  predicate AllWordChars(s: string) {
    forall i :: 0 <= i < |s| ==> IsWordChar(s[i])
  }

  /** A token: `_` followed by ASCII letters and digits. */
  predicate IsToken(t: string) {
    |t| > 0 && t[0] == '_' && AllWordChars(t) && '_' !in t[1..]
  }

  /** A glyph: non-empty and free of word characters. */
  predicate IsGlyph(g: string) {
    |g| > 0 && forall i :: 0 <= i < |g| ==> !IsWordChar(g[i])
  }

  /** A replacement table whose keys are tokens and whose values are glyphs. */
  predicate WellFormed(table: seq<(string, string)>) {
    forall i :: 0 <= i < |table| ==> IsToken(table[i].0) && IsGlyph(table[i].1)
  }

  const HoneyGlyph := "\U{1F36F}"
  const ClayGlyph := "\U{1FAA8}"
  const MetalGlyph := "\U{1F4BF}"
  const ClarityGlyph := "\U{2728}"
  const LarvaeGlyph := "\U{1F41B}"
  const DefenceGlyph := "\U{1F6E1}"
  const CombatPowerGlyph := "\U{2694}\U{FE0F}"
  const ProductionGlyph := "\U{2692}\U{FE0F}"
  const TimesGlyph := "\U{00D7}"

  /** `SYMBOL_MAP`, in declaration order. */
  const SymbolMap: seq<(string, string)> := [
    ("_honey", HoneyGlyph),
    ("_clay", ClayGlyph),
    ("_metal", MetalGlyph),
    ("_clarity", ClarityGlyph),
    ("_larvae", LarvaeGlyph),
    ("_defence", DefenceGlyph),
    ("_combatpower", CombatPowerGlyph),
    ("_production", ProductionGlyph),
    ("_x", TimesGlyph),
    ("_d1", "\U{2680}"),
    ("_d2", "\U{2681}"),
    ("_d3", "\U{2682}"),
    ("_d4", "\U{2683}"),
    ("_d5", "\U{2684}"),
    ("_d6", "\U{2685}")
  ]

  /**
   * `SYMBOL_MAP` with the characters the file holds for the five truncated
   * literals, instead of the emoji they begin.
   */
  const LiteralSymbolMap: seq<(string, string)> :=
    SymbolMap[0 := ("_honey", "\U{00F0}\U{0178}\U{00AF}")]
             [4 := ("_larvae", "\U{00F0}\U{0178}\U{203A}")]
             [6 := ("_combatpower", "\U{00E2}\U{0161}\U{201D}\U{00EF}\U{00B8}")]
             [7 := ("_production", "\U{00E2}\U{0161}\U{2019}\U{00EF}\U{00B8}")]
             [10 := ("_d2", "\U{00E2}\U{0161}")]

  lemma SymbolMapWellFormed()
    ensures WellFormed(SymbolMap)
  {
    SymbolMapKeysAreTokens();
    SymbolMapGlyphs();
  }

  lemma SymbolMapKeysAreTokens()
    ensures forall i :: 0 <= i < |SymbolMap| ==> IsToken(SymbolMap[i].0)
  {
    forall i | 0 <= i < |SymbolMap|
      ensures IsToken(SymbolMap[i].0)
    {
      LowerAlphanumericToken(SymbolMap[i].0);
    }
  }

  lemma SymbolMapGlyphs()
    ensures forall i :: 0 <= i < |SymbolMap| ==> IsGlyph(SymbolMap[i].1)
  {
  }

  /** `_` followed by lower-case letters and digits is a token. */
  lemma LowerAlphanumericToken(t: string)
    requires |t| > 0 && t[0] == '_'
    requires forall k :: 1 <= k < |t| ==> 'a' <= t[k] <= 'z' || '0' <= t[k] <= '9'
    ensures IsToken(t)
  {
    assert forall k :: 0 <= k < |t[1..]| ==> t[1..][k] == t[k + 1];
  }

  /** Run the replace-all steps of `table` one after another, first entry first. */
  function ReplaceEach(table: seq<(string, string)>, s: string): string
    requires forall i :: 0 <= i < |table| ==> |table[i].0| > 0
    decreases |table|
  {
    if |table| == 0 then s
    else ReplaceEach(table[1..], ReplaceAll(s, table[0].0, table[0].1))
  }

  /** `symbolReplace(str)`. */
  function SymbolReplace(s: string): string {
    SymbolReplaceWellFormed();
    ReplaceEach(SymbolMap, s)
  }

  lemma SymbolReplaceWellFormed()
    ensures forall i :: 0 <= i < |SymbolMap| ==> |SymbolMap[i].0| > 0
  {
    SymbolMapWellFormed();
  }

  // ---------------------------------------------------------------------------
  // Why the token/glyph shape matters: a glyph separates, it never joins.

  /** A prefix of word characters on the result of a replacement was already on the input. */
  lemma {:induction false} WordPrefixSurvivesReplace(s: string, pat: string, rep: string, w: string)
    requires |pat| > 0 && IsGlyph(rep) && AllWordChars(w)
    ensures StartsWith(ReplaceAll(s, pat, rep), w) ==> StartsWith(s, w)
    decreases |s|
  {
    if |w| > 0 && |s| >= |pat| {
      var r := ReplaceAll(s, pat, rep);
      if s[..|pat|] == pat {
        // The result starts with a glyph character, which no word starts with.
        assert r[0] == rep[0] && IsWordChar(w[0]) && !IsWordChar(rep[0]);
      } else {
        var tail := ReplaceAll(s[1..], pat, rep);
        assert r == [s[0]] + tail;
        WordPrefixSurvivesReplace(s[1..], pat, rep, w[1..]);
        if StartsWith(r, w) {
          assert StartsWith(tail, w[1..]);
          assert s[..|w|] == [s[0]] + s[1..][..|w| - 1];
        }
      }
    }
  }

  /** A token cannot start inside a glyph, so a glyph in front adds no occurrence. */
  lemma {:induction false} GlyphAddsNoOccurrence(g: string, rest: string, t: string)
    requires IsToken(t) && forall i :: 0 <= i < |g| ==> !IsWordChar(g[i])
    requires !Occurs(rest, t)
    ensures !Occurs(g + rest, t)
    decreases |g|
  {
    if |g| > 0 {
      GlyphAddsNoOccurrence(g[1..], rest, t);
      assert (g + rest)[1..] == g[1..] + rest;
      assert IsWordChar(t[0]) && !IsWordChar(g[0]);
      assert (g + rest)[0] == g[0];
      assert |t| <= |g + rest| ==> (g + rest)[..|t|][0] != t[0];
    } else {
      assert g + rest == rest;
    }
  }

  /** After a replace-all step its token no longer occurs. */
  lemma {:induction false} ReplaceAllRemovesToken(s: string, pat: string, rep: string)
    requires IsToken(pat) && IsGlyph(rep)
    ensures !Occurs(ReplaceAll(s, pat, rep), pat)
    decreases |s|
  {
    var r := ReplaceAll(s, pat, rep);
    if |s| < |pat| {
    } else if s[..|pat|] == pat {
      ReplaceAllRemovesToken(s[|pat|..], pat, rep);
      GlyphAddsNoOccurrence(rep, ReplaceAll(s[|pat|..], pat, rep), pat);
    } else {
      var tail := ReplaceAll(s[1..], pat, rep);
      ReplaceAllRemovesToken(s[1..], pat, rep);
      assert r == [s[0]] + tail && r[1..] == tail;
      // A match at the front of the result would need `pat` minus its `_`
      // right after `s[0]`, hence `pat` at the front of `s`.
      WordPrefixSurvivesReplace(s[1..], pat, rep, pat[1..]);
      assert StartsWith(r, pat) ==> StartsWith(tail, pat[1..]);
      assert StartsWith(s[1..], pat[1..]) ==> s[..|pat|] == [s[0]] + s[1..][..|pat| - 1];
    }
  }

  /** A replace-all step with a glyph never creates an occurrence of another token. */
  lemma {:induction false} ReplaceAllKeepsAbsence(s: string, pat: string, rep: string, t: string)
    requires IsToken(pat) && IsGlyph(rep) && IsToken(t)
    requires !Occurs(s, t)
    ensures !Occurs(ReplaceAll(s, pat, rep), t)
    decreases |s|
  {
    var r := ReplaceAll(s, pat, rep);
    if |s| < |pat| {
    } else if s[..|pat|] == pat {
      NoOccurrenceInSuffix(s, t, |pat|);
      ReplaceAllKeepsAbsence(s[|pat|..], pat, rep, t);
      GlyphAddsNoOccurrence(rep, ReplaceAll(s[|pat|..], pat, rep), t);
    } else {
      var tail := ReplaceAll(s[1..], pat, rep);
      ReplaceAllKeepsAbsence(s[1..], pat, rep, t);
      assert r == [s[0]] + tail && r[1..] == tail;
      WordPrefixSurvivesReplace(s[1..], pat, rep, t[1..]);
      assert StartsWith(r, t) ==> StartsWith(tail, t[1..]);
      assert StartsWith(s[1..], t[1..]) && |t| <= |s| ==> s[..|t|] == [s[0]] + s[1..][..|t| - 1];
    }
  }

  /** A string without `t` has no suffix containing `t`. */
  lemma {:induction false} NoOccurrenceInSuffix(s: string, t: string, k: nat)
    requires k <= |s| && !Occurs(s, t)
    ensures !Occurs(s[k..], t)
    decreases k
  {
    if k > 0 {
      assert |t| <= |s| ==> s[..|t|] != t;
      if |t| <= |s| {
        NoOccurrenceInSuffix(s[1..], t, k - 1);
        assert s[1..][k - 1..] == s[k..];
      } else {
        assert |s[k..]| < |t|;
      }
    }
  }

  // ---------------------------------------------------------------------------
  // Properties of the whole pass.

  /** No key of `table` occurs in `s`. */
  predicate NoKeyOccurs(table: seq<(string, string)>, s: string) {
    forall i :: 0 <= i < |table| ==> !Occurs(s, table[i].0)
  }

  /**
   * After the pass no token of the table occurs, nor does any token that was
   * already absent: every step removes its own token, and no later step
   * brings back an earlier one.
   */
  lemma {:induction false} ReplaceEachLeavesNoToken(table: seq<(string, string)>, s: string, absent: seq<string>)
    requires WellFormed(table)
    requires forall j :: 0 <= j < |absent| ==> IsToken(absent[j]) && !Occurs(s, absent[j])
    ensures NoKeyOccurs(table, ReplaceEach(table, s))
    ensures forall j :: 0 <= j < |absent| ==> !Occurs(ReplaceEach(table, s), absent[j])
    decreases |table|
  {
    if |table| > 0 {
      var (pat, rep) := table[0];
      var s1 := ReplaceAll(s, pat, rep);
      ReplaceAllRemovesToken(s, pat, rep);
      forall j | 0 <= j < |absent|
        ensures !Occurs(s1, absent[j])
      {
        ReplaceAllKeepsAbsence(s, pat, rep, absent[j]);
      }
      var absent' := absent + [pat];
      assert forall j :: 0 <= j < |absent| ==> absent'[j] == absent[j];
      assert forall i :: 0 <= i < |table| - 1 ==> table[1..][i] == table[i + 1];
      ReplaceEachLeavesNoToken(table[1..], s1, absent');
      assert absent'[|absent|] == pat;
    }
  }

  /** A pass over a string where no key occurs changes nothing. */
  lemma {:induction false} ReplaceEachWithoutTokens(table: seq<(string, string)>, s: string)
    requires forall i :: 0 <= i < |table| ==> |table[i].0| > 0
    requires NoKeyOccurs(table, s)
    ensures ReplaceEach(table, s) == s
    decreases |table|
  {
    if |table| > 0 {
      ReplaceAllWithoutOccurrence(s, table[0].0, table[0].1);
      assert forall i :: 0 <= i < |table| - 1 ==> table[1..][i] == table[i + 1];
      ReplaceEachWithoutTokens(table[1..], s);
    }
  }

  /** After `symbolReplace` no `SYMBOL_MAP` token is left. */
  lemma SymbolReplaceLeavesNoToken(s: string)
    ensures forall i :: 0 <= i < |SymbolMap| ==> !Occurs(SymbolReplace(s), SymbolMap[i].0)
  {
    SymbolMapWellFormed();
    ReplaceEachLeavesNoToken(SymbolMap, s, []);
  }

  /** `symbolReplace` is idempotent: a second pass finds nothing to replace. */
  lemma SymbolReplaceIdempotent(s: string)
    ensures SymbolReplace(SymbolReplace(s)) == SymbolReplace(s)
  {
    SymbolReplaceLeavesNoToken(s);
    SymbolReplaceWellFormed();
    ReplaceEachWithoutTokens(SymbolMap, SymbolReplace(s));
  }

  /** For any well-formed table, a second pass finds nothing to replace. */
  lemma ReplaceEachIdempotent(table: seq<(string, string)>, s: string)
    requires WellFormed(table)
    ensures ReplaceEach(table, ReplaceEach(table, s)) == ReplaceEach(table, s)
  {
    ReplaceEachLeavesNoToken(table, s, []);
    ReplaceEachWithoutTokens(table, ReplaceEach(table, s));
  }

  /**
   * The literal text of the file gives a table with the same keys, just as
   * well formed and prefix-free, so the pass over it is idempotent too and
   * maps each key on its own to its literal text.
   */
  lemma LiteralSymbolMapBehavesAlike(s: string, i: nat)
    requires i < |LiteralSymbolMap|
    ensures |LiteralSymbolMap| == |SymbolMap|
    ensures forall k :: 0 <= k < |SymbolMap| ==> LiteralSymbolMap[k].0 == SymbolMap[k].0
    ensures WellFormed(LiteralSymbolMap) && PrefixFree(LiteralSymbolMap)
    ensures ReplaceEach(LiteralSymbolMap, ReplaceEach(LiteralSymbolMap, s))
         == ReplaceEach(LiteralSymbolMap, s)
    ensures ReplaceEach(LiteralSymbolMap, LiteralSymbolMap[i].0) == LiteralSymbolMap[i].1
  {
    SymbolMapWellFormed();
    SymbolMapPrefixFree();
    assert forall k :: 0 <= k < |SymbolMap| ==> LiteralSymbolMap[k].0 == SymbolMap[k].0;
    forall k | 0 <= k < |LiteralSymbolMap|
      ensures IsGlyph(LiteralSymbolMap[k].1)
    {
      if k !in {0, 4, 6, 7, 10} {
        assert LiteralSymbolMap[k] == SymbolMap[k];
      }
    }
    ReplaceEachIdempotent(LiteralSymbolMap, s);
    ReplaceEachOnKey(LiteralSymbolMap, i);
  }

  /** A token starts with `_`, so it cannot occur in a string without `_`. */
  lemma {:induction false} NoUnderscoreNoToken(s: string, t: string)
    requires IsToken(t) && '_' !in s
    ensures !Occurs(s, t)
    decreases |s|
  {
    if |t| <= |s| {
      assert s[..|t|][0] == s[0];
      NoUnderscoreNoToken(s[1..], t);
    }
  }

  /** A string with no `_` passes through `symbolReplace` unchanged. */
  lemma SymbolReplaceWithoutUnderscore(s: string)
    requires '_' !in s
    ensures SymbolReplace(s) == s
  {
    SymbolMapWellFormed();
    forall i | 0 <= i < |SymbolMap|
      ensures !Occurs(s, SymbolMap[i].0)
    {
      NoUnderscoreNoToken(s, SymbolMap[i].0);
    }
    ReplaceEachWithoutTokens(SymbolMap, s);
  }

  // ---------------------------------------------------------------------------
  // Each key on its own.

  /** No key of `table` is a prefix of another key. */
  predicate PrefixFree(table: seq<(string, string)>) {
    forall i, j :: 0 <= i < |table| && 0 <= j < |table| && i != j ==>
      !StartsWith(table[j].0, table[i].0)
  }

  /** No `SYMBOL_MAP` key is a prefix of another, so no step can eat into a later key. */
  lemma SymbolMapPrefixFree()
    ensures PrefixFree(SymbolMap)
  {
    forall i, j | 0 <= i < |SymbolMap| && 0 <= j < |SymbolMap| && i != j
      ensures !StartsWith(SymbolMap[j].0, SymbolMap[i].0)
    {
      var s, t := SymbolMap[j].0, SymbolMap[i].0;
      if |t| <= |s| {
        assert s[..|t|][1] != t[1] || (|t| > 2 && s[..|t|][2] != t[2])
            || (|t| > 4 && s[..|t|][4] != t[4]);
      }
    }
  }

  /** A token holds `_` only at its start, so it occurs in another token only as a prefix. */
  lemma TokenInTokenIsPrefix(u: string, t: string)
    requires IsToken(u) && IsToken(t)
    ensures Occurs(u, t) <==> StartsWith(u, t)
  {
    NoUnderscoreNoToken(u[1..], t);
  }

  /** A key alone is replaced by its own glyph and by nothing else. */
  lemma {:induction false} ReplaceEachOnKey(table: seq<(string, string)>, i: nat)
    requires WellFormed(table) && PrefixFree(table) && i < |table|
    ensures ReplaceEach(table, table[i].0) == table[i].1
  {
    var (t, g) := table[i];
    forall j | 0 <= j < i
      ensures !Occurs(t, table[..i][j].0)
    {
      TokenInTokenIsPrefix(t, table[j].0);
    }
    ReplaceEachWithoutTokens(table[..i], t);
    ReplaceEachSplit(table, i, t);
    var later := table[i + 1..];
    assert table[i..] == [(t, g)] + later;
    assert t[..|t|] == t && t[|t|..] == "";
    assert ReplaceAll(t, t, g) == g + ReplaceAll("", t, g) == g;
    forall j | 0 <= j < |later|
      ensures !Occurs(g, later[j].0)
    {
      assert later[j] == table[i + 1 + j];
      NoUnderscoreNoToken(g, later[j].0);
    }
    ReplaceEachWithoutTokens(later, g);
  }

  /** `symbolReplace` of a `SYMBOL_MAP` key alone is that key's glyph. */
  lemma SymbolReplaceOfKey(i: nat)
    requires i < |SymbolMap|
    ensures SymbolReplace(SymbolMap[i].0) == SymbolMap[i].1
  {
    SymbolMapWellFormed();
    SymbolMapPrefixFree();
    ReplaceEachOnKey(SymbolMap, i);
  }

  // ---------------------------------------------------------------------------
  // A worked example: `_production_x3`, the cost text of the Larvae Chambers.

  /** A pass is the first `k` steps followed by the rest. */
  lemma {:induction false} ReplaceEachSplit(table: seq<(string, string)>, k: nat, s: string)
    requires forall i :: 0 <= i < |table| ==> |table[i].0| > 0
    requires k <= |table|
    ensures ReplaceEach(table, s) == ReplaceEach(table[k..], ReplaceEach(table[..k], s))
    decreases k
  {
    if k > 0 {
      var s1 := ReplaceAll(s, table[0].0, table[0].1);
      ReplaceEachSplit(table[1..], k - 1, s1);
      assert table[1..][k - 1..] == table[k..];
      assert table[..k][1..] == table[1..][..k - 1];
    }
  }

  /** A pass whose every step leaves `s` alone leaves `s` alone. */
  lemma {:induction false} ReplaceEachFixed(table: seq<(string, string)>, s: string)
    requires forall i :: 0 <= i < |table| ==> |table[i].0| > 0
    requires forall i :: 0 <= i < |table| ==> ReplaceAll(s, table[i].0, table[i].1) == s
    ensures ReplaceEach(table, s) == s
    decreases |table|
  {
    if |table| > 0 {
      assert forall i :: 0 <= i < |table| - 1 ==> table[1..][i] == table[i + 1];
      ReplaceEachFixed(table[1..], s);
    }
  }

  /** The scan passes over a stretch without `_` when the pattern is a token. */
  lemma {:induction false} ReplaceAllSkipsPlainText(w: string, rest: string, pat: string, rep: string)
    requires IsToken(pat) && '_' !in w
    ensures ReplaceAll(w + rest, pat, rep) == w + ReplaceAll(rest, pat, rep)
    decreases |w|
  {
    if |w| > 0 {
      var s := w + rest;
      assert w[0] != '_';
      if |s| < |pat| {
        assert ReplaceAll(rest, pat, rep) == rest;
      } else {
        assert s[..|pat|][0] == w[0];
        assert s[..|pat|] != pat;
        assert s[1..] == w[1..] + rest;
        ReplaceAllSkipsPlainText(w[1..], rest, pat, rep);
        assert ReplaceAll(s, pat, rep) == [w[0]] + (w[1..] + ReplaceAll(rest, pat, rep));
        assert [w[0]] + w[1..] == w;
      }
    } else {
      assert w + rest == rest;
    }
  }

  /** The steps before `_production` find nothing in `_production_x3`. */
  lemma ExampleUntouchedBefore(i: nat)
    requires i < 7
    ensures ReplaceAll("_production_x3", SymbolMap[i].0, SymbolMap[i].1) == "_production_x3"
  {
    SymbolMapWellFormed();
    var (t, g) := SymbolMap[i];
    var s := "_production_x3";
    assert IsToken(t) && |t| > 3 && t[1] != 'p';
    assert |s| >= |t| ==> s[..|t|][1] == 'p';
    ReplaceAllSkipsPlainText("production", "_x3", t, g);
    assert s[1..] == "production" + "_x3";
    assert s == [s[0]] + s[1..];
  }

  lemma ExampleProductionStep()
    ensures ReplaceAll("_production_x3", "_production", ProductionGlyph) == ProductionGlyph + "_x3"
  {
    var s := "_production_x3";
    assert s[..11] == "_production";
    assert s[11..] == "_x3";
    assert ReplaceAll("_x3", "_production", ProductionGlyph) == "_x3";
  }

  lemma ExampleTimesStep()
    ensures ReplaceAll(ProductionGlyph + "_x3", "_x", TimesGlyph) == ProductionGlyph + TimesGlyph + "3"
  {
    ReplaceAllSkipsPlainText(ProductionGlyph, "_x3", "_x", TimesGlyph);
    var s := "_x3";
    assert s[..2] == "_x" && s[2..] == "3";
    assert ReplaceAll("3", "_x", TimesGlyph) == "3";
  }

  lemma ExampleDiceSteps()
    ensures ReplaceEach(SymbolMap[9..], ProductionGlyph + TimesGlyph + "3")
         == ProductionGlyph + TimesGlyph + "3"
  {
    var done := ProductionGlyph + TimesGlyph + "3";
    SymbolMapWellFormed();
    assert '_' !in done;
    forall i | 0 <= i < |SymbolMap[9..]|
      ensures !Occurs(done, SymbolMap[9..][i].0)
    {
      NoUnderscoreNoToken(done, SymbolMap[9..][i].0);
    }
    ReplaceEachWithoutTokens(SymbolMap[9..], done);
  }

  /**
   * The order of the steps at work on `_production_x3`: the production step
   * leaves `_x3`, which the later `_x` step turns into `×3`.
   */
  lemma ProductionCostExample()
    ensures SymbolReplace("_production_x3") == ProductionGlyph + TimesGlyph + "3"
  {
    var s := "_production_x3";
    SymbolReplaceWellFormed();
    forall i | 0 <= i < 7
      ensures ReplaceAll(s, SymbolMap[..7][i].0, SymbolMap[..7][i].1) == s
    {
      ExampleUntouchedBefore(i);
    }
    ReplaceEachFixed(SymbolMap[..7], s);
    ReplaceEachSplit(SymbolMap, 7, s);
    ExampleProductionStep();
    ExampleTimesStep();
    ExampleDiceSteps();
    var rest := SymbolMap[7..];
    assert rest[0] == ("_production", ProductionGlyph);
    assert rest[1..][0] == ("_x", TimesGlyph);
    assert rest[1..][1..] == SymbolMap[9..];
  }
}

=== FILE: wrappers.dfy ===
/**
 * Failure-carrying values used across the model.
 *
 * `Option` stands for a JavaScript number that may be `NaN` (`None`) and for an
 * object field that may be absent; `Result` stands for a computation that may
 * raise one of the Python exceptions named by its error type.
 */
module Wrappers {

  datatype Option<+T> = None | Some(value: T) {

    /** The wrapped value, or `default` when there is none (JavaScript `??`). */
    function GetOr(default: T): T {
      match this
      case Some(v) => v
      case None => default
    }
  }

  datatype Result<+R, +E> = Success(value: R) | Failure(error: E)
}
